=== FILE: README.md ===
# Word-chain Discord bot: a Dafny model

This project models the core of `dc.py`, a Discord bot with three modes that an
administrator picks per channel from a menu:

- **idle**: the bot ignores the channel;
- **game**: 接龍, the Chinese word-chain game. Each new word must start with the
  last character of the previous accepted word. A language model acts as
  judge of whether the word is real vocabulary;
- **AI chat**: messages go to the language model verbatim and its reply is posted.

All bot state lives in one in-memory table from channel id to a session record.
A record holds the mode, the live word, the player who played it, the pending
"close ticket" prompt and the ticket owner. The channel topic doubles as
persistent storage: a channel whose topic is 【接龍模式】 is forced into game
mode. At start-up, such a channel's chain is rebuilt from the newest
person-written message among its ten newest that carries the bot's own ✅
reaction.

Modules, one per file:

- `Wrappers` (`wrappers.dfy`): `Option`.
- `PyText` (`pytext.dfy`): the Python string operations the bot relies on, on
  code points. `str.strip()` uses Python's `str.isspace` set. `lstrip(chars)`,
  `str.replace` (one left-to-right pass) and `str.startswith` are written out too.
- `Sessions` (`sessions.dfy`): the session record, the lazy creation of
  sessions, the topic constants, messages and reactions, and the "has the bot's
  own ✅" scan.
- `WordChain` (`wordchain.dfy`): the referee.
  - The local rules run in the order the code applies them.
  - The judge is consulted only when every local rule passes.
  - A YES reply updates the session.
  - A non-YES reply is turned into the critique text.
- `Integrity` (`integrity.dfy`): the anti-cheat decision shared by the delete
  and edit handlers.
- `Recovery` (`recovery.dfy`): start-up recovery of game channels.
- `Story` (`story.dfy`):
  - the story-length clamp;
  - the ten-word scan of the "test story" menu entry;
  - the per-channel last-24-hours scan of the daily story.
- `Dispatch` (`dispatch.dfy`):
  - the message handler after its early filters;
  - the administrator menu's effect on the session and on the channel topic.
- `Bot` (`bot.dfy`): class `ChannelData`. It holds the table as a `map` field.
  Its event-handler methods update the table in place. Each method is proved
  equal to the pure description in the modules above.

The language model is an oracle parameter `llm: Prompt -> LlmReply`.
`Failure` stands for any exception around the call. Discord is represented by
plain values: a message event, a channel listing with its topic and its
newest-first history, and a "text channel?" flag.

Behaviour of dc.py worth knowing:

- **Self-play check first.** A follow-up by the previous word's author is
  refused before length, equal-ends or chain-link checks (dc.py:600).
- **Judge sees only the candidate.** The judge prompt contains the candidate
  word alone, not the previous word. So the judge is modelled as a function of
  the candidate only.
- **Word-equality monitor.** The delete/edit monitor compares the message's
  trimmed text with the live word. It does not compare message identity. A
  chain can return to an earlier word (`Integrity.ChainCanRevisitWord`). When
  it does, deleting the old message is called out too
  (`Integrity.RevisitedWordCalledOut`).
- **Blank ✅ message.** Recovery copies the trimmed text of the newest
  person-written ✅-ed message among the ten newest. It could only make the
  live word empty, while a player is recorded, if that message were blank.
- **Empty live word.** When the live word is empty, the monitor's
  `game_last_word[-1]` raises. This is modelled as the alarm `IndexError`.

## Model

| member | source | states |
|---|---|---|
| Sessions.Materialize | dc.py:31-40 | Looking up a channel creates its idle default session only when it is missing. Every other entry, and an existing entry, is left as it was. |
| Sessions.MaterializeIsStore | dc.py:31-40 | Creating a record on demand is the same as storing what the lookup returns. |
| Sessions.MaterializeIdempotent | dc.py:31-40 | Looking up the same channel twice creates at most one session. |
| Sessions.Newest | dc.py:472 | The history window is the first min(n, length) messages, newest first. |
| Sessions.ScanReactions | dc.py:477-481 | The reaction loop reports true exactly when some reaction is the bot's own ✅. |
| PyText.TrimLeft | dc.py:590 | After `lstrip()` no leading Python whitespace remains, and the text is no longer. |
| PyText.TrimLeftIsSuffix | dc.py:590 | `lstrip()` keeps a suffix of the text. |
| PyText.TrimLeftDropsOnlySpace | dc.py:590 | Everything `lstrip()` removes is Python whitespace. |
| PyText.TrimRight | dc.py:590 | After `rstrip()` no trailing Python whitespace remains, and the text is no longer. |
| PyText.TrimRightIsPrefix | dc.py:590 | `rstrip()` keeps a prefix of the text. |
| PyText.TrimRightDropsOnlySpace | dc.py:590 | Everything `rstrip()` removes is Python whitespace. |
| PyText.Strip | dc.py:590 | A stripped text has no whitespace at either end and is no longer than the input. |
| PyText.StripRecovers | dc.py:590 | Surrounding a stripped word with whitespace and stripping again gives the word back. |
| PyText.StripKeepsStripped | dc.py:590 | Stripping an already stripped text changes nothing. |
| PyText.StripIdempotent | dc.py:590 | Stripping twice equals stripping once. |
| PyText.LStripChars | dc.py:670 | Only leading characters from the given set are removed, and all of them. |
| PyText.ReplaceAll | dc.py:670 | Text without the pattern is returned unchanged. A replacement no longer than the pattern never lengthens the text. |
| PyText.ReplaceFirstOccurrence | dc.py:670 | When no occurrence of the pattern starts before a given one, the text before it is copied, that occurrence becomes the replacement, and the scan goes on after it. With `ReplaceAll`'s no-occurrence clause this fixes the leftmost, non-overlapping replacement. |
| PyText.ReplaceIsSinglePass | dc.py:670 | Removing "NO" from "NNOO" leaves "NO". A single pass can leave the pattern behind. |
| WordChain.LocalRejection | dc.py:592-618 | An opening is refused exactly when it is shorter than two characters, and only as too short. A follow-up passes exactly when all four follow-up rules hold. |
| WordChain.RejectedMoveIs | dc.py:592-618 | A move a local rule refuses gets exactly that rule as its verdict and leaves the session unchanged. |
| WordChain.FollowUpCheckOrder | dc.py:599-618 | Self-play, too short, equal ends and chain break are reported in that order, each exactly when the earlier rules pass and it fails. A chain break names the expected and the actual character. |
| WordChain.Critique | dc.py:668-671 | The critique is a stripped text no longer than the judge's reply. |
| WordChain.JudgeAccepts | dc.py:664 | A stripped reply starting with YES accepts. Characterised by `GameStep`'s acceptance clause; no contract of its own. |
| WordChain.CritiqueAfterVerdict | dc.py:670 | For a reply "NO", then separators, then a stripped text without "NO", the critique is exactly that text. |
| WordChain.GameStep | dc.py:588-673 | The verdict and the new session of one move. Rejected iff a local rule fails. Judge unavailable iff the rules pass and the call fails. Accepted iff the rules pass and the trimmed reply starts with YES. A rejection names the first rule that fails. Any other reply carries as critique the reply with every "NO" removed, stripped, with leading separators dropped and stripped again. Acceptance records the trimmed word and its author. Every other verdict leaves the session unchanged. Nothing but the chain fields ever changes. |
| WordChain.LocalRejectionSkipsJudge | dc.py:592-658 | A locally refused move has the same outcome whatever the model would answer, and it leaves the session unchanged. |
| WordChain.AcceptedWordIsLong | dc.py:592-607 | Every accepted word has at least two characters. |
| WordChain.AcceptedFollowUpObeysRules | dc.py:599-618 | An accepted follow-up has at least two characters. Its first and last characters differ. It starts with the previous word's last character. It has a new author and differs from the previous word. |
| WordChain.GameStepKeepsChainInvariant | dc.py:664-666 | No move breaks this invariant: the live word is empty iff no player is recorded, and the word is stripped. |
| WordChain.ChainSampleGoesToJudge | dc.py:599-618 | 戲劇效果 after 接龍遊戲 passes every local rule. |
| WordChain.ChainSampleTooShort | dc.py:604-607 | 龍 after 接龍 is refused as too short. |
| WordChain.ChainSampleBreak | dc.py:615-618 | 香蕉 after 蘋果 is a chain break that expected 果 and got 香. |
| Integrity.Monitor | dc.py:508-548 | An alarm is raised iff the channel is in game mode, the message is a person's and carries the bot's ✅, and its trimmed text is the live word. The call-out names the author and the live word's last character. The index error happens only on an empty live word. |
| Integrity.LiveWordTamperingCalledOut | dc.py:508-548 | Deleting or editing the message just accepted is always called out, naming its last character. |
| Integrity.SupersededWordIgnored | dc.py:521 | Once a follow-up is accepted, tampering with the replaced word's message goes unremarked. |
| Integrity.ChainCanRevisitWord | dc.py:599-618 | The local rules let a chain come back to an earlier word (ab, ba, ab). |
| Integrity.RevisitedWordCalledOut | dc.py:521-522 | When the chain is back at an earlier word, deleting the earlier message with that word is called out. |
| Recovery.FirstQualifying | dc.py:472-486 | Returns the first person-written ✅-ed message in the window, and None only when there is none. |
| Recovery.Recovered | dc.py:464-486 | Recovery leaves the channel in game mode with its ticket fields untouched. The chain either stays, or becomes the trimmed text and author of a person-written ✅-ed message among the ten newest. `RecoveredAt` says which message. |
| Recovery.RecoverChannelIn | dc.py:464-486 | Visiting a game-topic channel stores `Recovered` of its looked-up session and history, which is in game mode. Visiting any other channel changes nothing, and no other channel's session changes. |
| Recovery.RecoverAll | dc.py:462-486 | After start-up recovery every game-topic channel of the listing has a session in game mode. Only game-topic channels gain or change a session. `RecoverAllAt` gives each one's restored chain. |
| Recovery.RecoverAllAt | dc.py:462-486 | Channel ids are unique, so after start-up recovery each game-topic channel holds exactly `Recovered` of the session the table had for it and of its own history. |
| Recovery.RecoveryPicksNewestAccepted | dc.py:472-486 | If the newest qualifying message is among the ten newest, its trimmed text and author become the chain and the mode becomes game. |
| Recovery.RecoveredAt | dc.py:472-486 | Recovery takes the first qualifying message among the ten newest. |
| Recovery.RecoveryWithoutAcceptedKeepsChain | dc.py:472-486 | Without a qualifying message among the ten newest, only the mode changes, to game. |
| Recovery.RecoveryIdempotent | dc.py:462-486 | Recovering twice from the same history equals recovering once. |
| Recovery.RecoveryKeepsChainInvariant | dc.py:472-486 | Recovery keeps the chain invariant whenever the ✅-ed message it picks, if any, is not blank; older ✅-ed messages may be anything. |
| Recovery.RestartRestoresChain | dc.py:462-486 | After a restart, a fresh session recovers exactly the word and player that the last accepted move recorded. |
| Story.TargetLength | dc.py:110-117 | The story length is 50 characters per word, clamped to 200..2000, with the exact value in each of the three ranges. |
| Story.CheckedWords | dc.py:359-366 | At most one word per message scanned. |
| Story.CheckedWordsAppend | dc.py:359-366 | Scanning two stretches of history one after the other gives the words of both, in order. |
| Story.CheckedWordSource | dc.py:359-366 | Every checked word is the text of a person-written ✅-ed message of the scanned history. |
| Story.TestStorySources | dc.py:343-346 | There are no source histories exactly when no listed channel has the game or test-story topic. `TestStorySourcesOne` and `TestStorySourcesAppend` make the sources one history per source channel, in listing order. |
| Story.TestStorySourcesOne | dc.py:343-346 | A single channel contributes its history exactly when it has the game or test-story topic. |
| Story.TestStorySourcesAppend | dc.py:343-346 | The sources of two listings, one after the other, are the sources of each, in order. |
| Story.TestStorySourceOf | dc.py:343-346 | Every history the test story reads is that of a listed channel with the game or test-story topic. |
| Story.SourceChannelIsRead | dc.py:343-346 | Every listed channel with the game or test-story topic is read. |
| Story.AllTestWords | dc.py:355-367 | Every ✅-ed word of the sources' 500 newest messages, channel by channel. Characterised by `AllTestWordSource`, `AllTestWordsAppend` and `CollectTestWords`; no contract of its own. |
| Story.AllTestWordSource | dc.py:355-366 | Every test word is the text of a person-written ✅-ed message among the 500 newest of one source channel. |
| Story.Take | dc.py:355-360 | The first n words, or all of them when there are fewer. |
| Story.TakeFull | dc.py:355-360 | Once ten words are held, later channels and messages add nothing. |
| Story.CollectTestWords | dc.py:343-367 | Reports whether any source channel exists. Returns the first ten ✅-ed words of the source channels' 500 newest messages, channel by channel, newest first. |
| Story.CollectFromChannel | dc.py:355-366 | One channel's scan extends the collected words with the channel's ✅-ed words and stops at ten. |
| Bot.TestScanOf | dc.py:343-373 | The test-story scan reports "no source channel" exactly when no listed channel has the game or test-story topic. It reports "no word" only when the sources hold no ✅-ed word. Otherwise it reports between one and ten words. |
| Bot.ScanTestStory | dc.py:343-367 | The scan's report equals `TestScanOf`, and the words are the first ten ✅-ed words of the sources. |
| Story.DailyWords | dc.py:89-101 | At most one word per message. |
| Story.DailyWordSource | dc.py:89-101 | Each daily word is the text of a person-written ✅-ed message no older than the cutoff. |
| Story.DailyWordsAreRecentAccepted | dc.py:89-101 | Every daily word comes from a recent, person-written, ✅-ed message. |
| Story.CollectDailyWords | dc.py:87-102 | The daily scan skips bot messages and stops at the first person-written message older than the cutoff. It keeps the ✅-ed texts in between. |
| Dispatch.ForcedMode | dc.py:577-580 | The game topic forces game mode and the AI topic forces AI mode. Any other topic keeps the stored mode. |
| Dispatch.RetractTicketPrompt | dc.py:565-572 | The pending prompt is forgotten iff a truthy ticket owner speaks while a truthy prompt id is stored. Nothing else changes. |
| Dispatch.Filtered | dc.py:552-560 | Messages of the bot itself, outside server text channels, or in the story channel are dropped. Characterised by `ChannelData.OnMessage`, which leaves the table unchanged for them; no contract of its own. |
| Dispatch.HandleMessage | dc.py:565-686 | The ticket fields change only by retraction. A "!" message does nothing else. Otherwise the forced mode is stored and the mode decides: idle ignores the message; game, whether forced by the topic or stored, referees it with exactly `GameStep`'s verdict and session; AI chat relays the model's reply to the message, or reports the failed call. The chain changes only on an accepted move. |
| Dispatch.IdleChannelIgnoresMessages | dc.py:577-585 | An idle channel without a forcing topic ignores every message. |
| Dispatch.Dispatched | dc.py:577-686 | The topic-forced mode is stored, the ticket fields are kept, a move is refereed iff the mode is game, and the message is ignored iff the mode is idle. `HandleMessage` states the outcome per mode. |
| Dispatch.GameTopicReferees | dc.py:577-590 | A game-topic channel referees every non-command message, whatever mode was stored. |
| Dispatch.HandleMessageKeepsChainInvariant | dc.py:565-686 | No message breaks the chain invariant. |
| Dispatch.Select | dc.py:330-447 | The mode becomes game, AI or idle according to the entry. Only the game entry clears the chain. Ticket fields are untouched. |
| Dispatch.SelectKeepsChainInvariant | dc.py:330-447 | No selection breaks the chain invariant. |
| Dispatch.TopicEditFor | dc.py:336-447 | The game, AI, test-story, panel and story-channel entries each leave the channel with their own topic. The idle entry never leaves the game or AI topic, and it is the only entry that clears a topic. |
| Dispatch.SelectionSticks | dc.py:418-447 | After a selection's topic change, the next message finds the selected mode. The exception is the story-channel entry, whose channel the handler then ignores. |
| Sessions.Lookup | dc.py:31-40 | The stored session, or the idle default. Characterised by `Materialize`, `MaterializeIsStore` and `ChannelData.GetChannelConfig`; no contract of its own. |
| Bot.ChannelData.constructor | dc.py:29 | The table starts empty. |
| Bot.ChannelData.GetChannelConfig | dc.py:31-40 | The returned session is what a lookup gives: the stored entry, or the idle default. Only that entry is stored, and the chain invariant of all entries is kept. |
| Bot.ChannelData.OnMessage | dc.py:551-585 | Filtered messages change nothing and create no session. Otherwise the channel's entry becomes `HandleMessage`'s session and the outcome is `HandleMessage`'s. The chain invariant of all entries is kept. |
| Bot.ChannelData.RetractPrompt | dc.py:565-572 | The stored session becomes `RetractTicketPrompt`'s. |
| Bot.ChannelData.HandleByMode | dc.py:577-686 | The stored session and the outcome are those of the mode-forcing and per-mode step. |
| Bot.ChannelData.PlayMove | dc.py:588-673 | The early-return game branch stores `GameStep`'s session and reports its verdict. |
| Bot.ChannelData.OnDeleteOrEdit | dc.py:508-548 | Bot messages and non-text channels change nothing. Otherwise the session is materialised, no entry changes, and the alarm is `Monitor`'s. |
| Bot.ChannelData.SelectCallback | dc.py:322-447 | A non-administrator changes nothing and creates no session. Otherwise the entry becomes `Select`'s and the topic change is `TopicEditFor`'s. Only the test-story entry reports a scan, and that scan is `TestScanOf` of the server's channels. |
| Bot.ChannelData.RecoverChannel | dc.py:462-486 | One channel's start-up recovery equals `RecoverChannelIn`. |
| Bot.ChannelData.OnReady | dc.py:462-486 | Start-up recovery over the listed channels equals `RecoverAll`. |

## Left out

- Discord I/O is represented by plain values. The replies, reactions, embeds,
  ephemeral notices and typing indicators the handlers send are not part of the
  model, nor is whether those calls fail.
- The ticket system (launcher, closer and admin views, dc.py:160-305) is not
  part of this model. Only the two session fields it writes are modelled, and
  their use by the message handler.
- `delete_after_delay` and the `!menu` command are not modelled. Command
  processing runs before the message handler and does not touch the sessions.
- Calls to the Groq language model are an oracle parameter. Prompt texts,
  model names and temperatures are not modelled.
- The story prompt, the story text and its embed are not modelled. Only the
  word collection and the length clamp are.
- The daily story's choice of one output channel per server, and its skipping
  of game channels in servers without one (dc.py:56-82), is not modelled. Nor
  are the scheduler, the Asia/Taipei time zone and the clock: the cutoff is a
  parameter.
- Concurrency is not modelled. Handlers run one at a time here. The source has
  no per-channel lock, and interleavings at its `await` points are out of scope.
- For start-up recovery and the test story, a history read that raises midway
  is modelled as the messages read so far (dc.py:489-490, dc.py:368); the
  model does not distinguish a truncated history from a short one.
- Story.CollectDailyWords: models only a history read that succeeds. When the
  daily scan's read raises, dc.py:103-105 drops the words already read from
  that channel and writes no story for it; that path is not modelled.
- WordChain.Critique: a reply that is only "NO" and separators leaves an empty
  critique, so the verdict is `JudgeSaidNo("")`. It stands for the ❌ reaction
  followed by sending an empty message (dc.py:669-671). Discord refuses an
  empty message, and the `except` at dc.py:672-673 would then post the
  "referee zoned out" notice; that failure is not modelled. The session is
  unchanged either way.
- Story.CheckedWords: states only the length bound on its own; where its words
  come from is stated by `CheckedWordSource`, and the exact sequence is used
  through `CollectTestWords`.
- Story.DailyWords: states only the length bound on its own; where its words
  come from is stated by `DailyWordsAreRecentAccepted`.

=== FILE: bot.dfy ===
/**
 * The bot's one piece of mutable state, the per-channel session table, and
 * the event handlers that read and update it in place. Each handler is
 * proved against the pure description of what it does (`Materialize`,
 * `HandleMessage`, `Monitor`, `Select`, `RecoverChannelIn`, `RecoverAll`).
 */
module Bot {
  import opened Wrappers
  import opened PyText
  import opened Sessions
  import opened WordChain
  import opened Integrity
  import opened Recovery
  import opened Story
  import opened Dispatch

  /** What the test-story entry of the menu found before the story is written. */
  datatype TestScan =
    | NoSourceChannels     // no channel has the game or test-story topic
    | NoCheckedWords       // the source channels hold no ✅-ed word
    | Words(ws: seq<string>) // the words handed to the story writer

  /** What the test-story scan reports for the server's text channels `guild`. */
  function TestScanOf(guild: seq<ChannelListing>): (r: TestScan)
    ensures r == NoSourceChannels <==> forall i :: 0 <= i < |guild| ==> !StorySource(guild[i])
    ensures r == NoCheckedWords ==> AllTestWords(TestStorySources(guild)) == []
    ensures r.Words? ==> r.ws != [] && |r.ws| <= TestStoryWordLimit
  {
    var hs := TestStorySources(guild);
    if hs == [] then NoSourceChannels
    else
      var words := Take(AllTestWords(hs), TestStoryWordLimit);
      if words == [] then NoCheckedWords else Words(words)
  }

  /** The test-story entry's scan: the source channels, then their first ten ✅-ed words. */
  method ScanTestStory(guild: seq<ChannelListing>) returns (scan: TestScan)
    ensures scan == TestScanOf(guild)
    ensures scan.Words? ==> scan.ws == Take(AllTestWords(TestStorySources(guild)), TestStoryWordLimit)
  {
    var found, words := CollectTestWords(guild);
    if !found {
      scan := NoSourceChannels;
    } else if words == [] {
      scan := NoCheckedWords;
    } else {
      scan := Words(words);
    }
  }

  /** Every session of the table keeps the chain fields in agreement. */
  predicate AllChainsValid(table: map<ChannelId, Session>) {
    forall c :: c in table ==> ChainInvariant(table[c])
  }

  /** Storing a session that keeps the chain invariant keeps it for the whole table. */
  lemma StoreKeepsChainsValid(table: map<ChannelId, Session>, cid: ChannelId, s: Session)
    requires AllChainsValid(table) && ChainInvariant(s)
    ensures AllChainsValid(table[cid := s])
  {
  }

  class ChannelData {
    /** The session of every channel the bot has touched since it started. */
    var channels: map<ChannelId, Session>

    /** Every stored session keeps the chain fields in agreement. */
    predicate Valid()
      reads this
    {
      AllChainsValid(channels)
    }

    constructor ()
      ensures channels == map[]
      ensures Valid()
    {
      channels := map[];
    }

    /** The channel's session, created in the default idle state on first use. */
    method GetChannelConfig(cid: ChannelId) returns (config: Session)
      modifies this
      ensures config == Lookup(old(channels), cid)
      ensures channels == old(channels)[cid := config]
      ensures old(Valid()) ==> Valid()
    {
      if cid !in channels {
        channels := channels[cid := DefaultSession];
      }
      config := channels[cid];
    }

    /**
     * A new message. Filtered messages leave the table alone and create
     * no session; every other message creates its channel's session if
     * needed and is handled as `HandleMessage` says.
     */
    method OnMessage(ev: MessageEvent, llm: Prompt -> LlmReply) returns (out: Outcome)
      modifies this
      ensures Filtered(ev) ==> channels == old(channels) && out == Ignored
      ensures !Filtered(ev) ==>
        var r := HandleMessage(Lookup(old(channels), ev.channel), ev, llm);
        channels == old(channels)[ev.channel := r.session] && out == r.outcome
      ensures old(Valid()) ==> Valid()
    {
      if ev.fromSelf { return Ignored; }
      if !ev.inTextChannel { return Ignored; }
      if ev.topic == Some(StoryTopic) { return Ignored; }
      ghost var before := Lookup(channels, ev.channel);
      ghost var wasValid := Valid();
      var config := GetChannelConfig(ev.channel);
      config := RetractPrompt(ev.channel, config, ev.author);
      if StartsWith(ev.content, "!") {
        assert HandleMessage(before, ev, llm) == Handled(config, Ignored);
        return Ignored;
      }
      out := HandleByMode(ev, config, llm);
      if wasValid {
        HandleMessageKeepsChainInvariant(before, ev, llm);
      }
    }

    /** The ticket owner's message retracts the pending close-ticket prompt. */
    method RetractPrompt(cid: ChannelId, config: Session, author: UserId) returns (config': Session)
      requires cid in channels && channels[cid] == config
      modifies this
      ensures config' == RetractTicketPrompt(config, author)
      ensures channels == old(channels)[cid := config']
    {
      config' := config;
      if Truthy(config.ticketOwnerId) && author == config.ticketOwnerId.value {
        if Truthy(config.tempMsgId) {
          config' := config.(tempMsgId := None);
        }
      }
      channels := channels[cid := config'];
    }

    /** The topic forces the mode, then the mode decides what the message does. */
    method HandleByMode(ev: MessageEvent, config: Session, llm: Prompt -> LlmReply) returns (out: Outcome)
      requires ev.channel in channels && channels[ev.channel] == config
      modifies this
      ensures var r := Dispatched(config, ev, llm);
        channels == old(channels)[ev.channel := r.session] && out == r.outcome
    {
      var cid := ev.channel;
      var current := config.(mode := ForcedMode(ev.topic, config.mode));
      channels := channels[cid := current];
      if current.mode == Idle {
        out := Ignored;
      } else if current.mode == Game {
        out := PlayMove(cid, current, ev.author, ev.content, llm);
      } else {
        match llm(ChatPrompt(ev.content)) {
          case Answer(text) => out := Relayed(text);
          case Failure => out := RelayFailed;
        }
      }
    }

    /** The game branch of the message handler, with its early returns. */
    method PlayMove(cid: ChannelId, config: Session, author: UserId, content: string, llm: Prompt -> LlmReply) returns (out: Outcome)
      requires cid in channels && channels[cid] == config
      modifies this
      ensures var step := GameStep(config, author, content, llm);
        channels == old(channels)[cid := step.session] && out == Played(step.verdict)
    {
      var lastWord := config.gameLastWord;
      var currentWord := Strip(content);
      if lastWord == [] {
        if |currentWord| < 2 {
          RejectedMoveIs(config, author, content, llm, OpeningTooShort);
          return Played(Rejected(OpeningTooShort));
        }
      } else {
        if config.lastPlayerId == Some(author) {
          RejectedMoveIs(config, author, content, llm, OwnFollowUp);
          return Played(Rejected(OwnFollowUp));
        }
        if |currentWord| < 2 {
          RejectedMoveIs(config, author, content, llm, TooShort);
          return Played(Rejected(TooShort));
        }
        if currentWord[0] == currentWord[|currentWord| - 1] {
          RejectedMoveIs(config, author, content, llm, SameEnds(currentWord));
          return Played(Rejected(SameEnds(currentWord)));
        }
        if currentWord[0] != lastWord[|lastWord| - 1] {
          RejectedMoveIs(config, author, content, llm, ChainBreak(lastWord[|lastWord| - 1], currentWord[0]));
          return Played(Rejected(ChainBreak(lastWord[|lastWord| - 1], currentWord[0])));
        }
      }
      assert LocalRejection(config, author, currentWord) == None;
      match llm(JudgePrompt(currentWord))
      case Failure =>
        out := Played(JudgeUnavailable);
      case Answer(text) =>
        var result := Strip(text);
        if StartsWith(result, "YES") {
          channels := channels[cid := config.(gameLastWord := currentWord, lastPlayerId := Some(author))];
          out := Played(Accepted);
        } else {
          out := Played(JudgeSaidNo(Critique(result)));
          assert channels == old(channels)[cid := config];
        }
    }

    /**
     * A deleted message, or the pre-edit version of an edited one: bot
     * messages and messages outside text channels are ignored before any
     * session is created; otherwise the session is created if needed and
     * `Monitor` decides. The table's contents never change.
     */
    method OnDeleteOrEdit(cid: ChannelId, inTextChannel: bool, m: Message) returns (alarm: Alarm)
      modifies this
      ensures m.authorIsBot || !inTextChannel ==> channels == old(channels) && alarm == Silent
      ensures !(m.authorIsBot || !inTextChannel) ==>
        channels == Materialize(old(channels), cid) && alarm == Monitor(Lookup(old(channels), cid), m)
      ensures old(Valid()) ==> Valid()
    {
      if m.authorIsBot || !inTextChannel { return Silent; }
      var config := GetChannelConfig(cid);
      MaterializeIsStore(old(channels), cid);
      alarm := Silent;
      if config.mode == Game {
        var isValid := ScanReactions(m.reactions);
        if isValid && Strip(m.content) == config.gameLastWord {
          var lastWord := config.gameLastWord;
          if lastWord == [] {
            alarm := IndexError;
          } else {
            alarm := CallOut(m.author, lastWord[|lastWord| - 1]);
          }
        }
      }
    }

    /**
     * A selection from the administrator's menu. A non-administrator's
     * selection is refused before any session is created. Otherwise the
     * session becomes `Select`'s, `edit` is the topic change asked of the
     * channel, and the test-story entry scans `guild`, the server's text
     * channels as they read after that change.
     */
    method SelectCallback(cid: ChannelId, topic: Option<string>, isAdmin: bool, choice: MenuChoice,
                          guild: seq<ChannelListing>)
      returns (edit: Option<TopicEdit>, scan: Option<TestScan>)
      modifies this
      ensures !isAdmin ==> channels == old(channels) && edit == None && scan == None
      ensures isAdmin ==> channels == old(channels)[cid := Select(Lookup(old(channels), cid), choice)]
      ensures isAdmin ==> edit == Some(TopicEditFor(choice, topic))
      ensures scan.Some? <==> isAdmin && choice == StoryTestChoice
      ensures scan.Some? ==> scan.value == TestScanOf(guild)
      ensures old(Valid()) ==> Valid()
    {
      if !isAdmin { return None, None; }
      ghost var before := Lookup(channels, cid);
      ghost var wasValid := Valid();
      var config := GetChannelConfig(cid);
      config := config.(mode := Idle);
      edit := Some(TopicEditFor(choice, topic));
      scan := None;
      match choice {
        case StoryTestChoice =>
          var found := ScanTestStory(guild);
          scan := Some(found);
        case PanelChoice =>
        case StoryChannelChoice =>
        case GameChoice =>
          config := config.(mode := Game, gameLastWord := "", lastPlayerId := None);
        case AiChoice =>
          config := config.(mode := Ai);
        case IdleChoice =>
          config := config.(mode := Idle);
      }
      channels := channels[cid := config];
      assert config == Select(before, choice);
      if wasValid {
        SelectKeepsChainInvariant(before, choice);
        StoreKeepsChainsValid(old(channels), cid, config);
      }
    }

    /**
     * Start-up recovery of one channel: a game-topic channel is put in game
     * mode and its chain is re-read from the ten newest messages.
     */
    method RecoverChannel(ch: ChannelListing)
      modifies this
      ensures channels == RecoverChannelIn(old(channels), ch)
    {
      if ch.topic != Some(GameTopic) { return; }
      var config := GetChannelConfig(ch.id);
      config := config.(mode := Game);
      channels := channels[ch.id := config];
      ghost var start := config;
      var i := 0;
      while i < |ch.history| && i < RecoveryLimit
        invariant 0 <= i <= |ch.history|
        invariant forall j :: 0 <= j < i ==> !Qualifies(ch.history[j])
        invariant config == start && channels == old(channels)[ch.id := start]
      {
        var msg := ch.history[i];
        if msg.authorIsBot {
          i := i + 1;
          continue;
        }
        var isValid := ScanReactions(msg.reactions);
        if isValid {
          config := config.(gameLastWord := Strip(msg.content), lastPlayerId := Some(msg.author));
          channels := channels[ch.id := config];
          RecoveredAt(Lookup(old(channels), ch.id), ch.history, i);
          return;
        }
        i := i + 1;
      }
      RecoveryWithoutAcceptedKeepsChain(Lookup(old(channels), ch.id), ch.history);
    }

    /** Start-up recovery over the server's text channels, in order. */
    method OnReady(listing: seq<ChannelListing>)
      modifies this
      ensures channels == RecoverAll(old(channels), listing)
    {
      var i := 0;
      while i < |listing|
        invariant 0 <= i <= |listing|
        invariant channels == RecoverAll(old(channels), listing[..i])
      {
        assert listing[..i + 1][..i] == listing[..i];
        RecoverChannel(listing[i]);
        i := i + 1;
      }
      assert listing[..i] == listing;
    }
  }
}

=== FILE: dispatch.dfy ===
/**
 * Message dispatch and the administrator's mode menu: which messages the
 * bot looks at, how a channel topic forces the mode, what idle, game and
 * AI-chat mode do with a message, and how a menu selection rewrites the
 * session and the channel topic.
 */
module Dispatch {
  import opened Wrappers
  import opened PyText
  import opened Sessions
  import opened WordChain

  /** A message-created event as the handler sees it. */
  datatype MessageEvent = MessageEvent(
    channel: ChannelId,
    inTextChannel: bool,   // a server text channel, not a DM or thread
    topic: Option<string>, // the channel topic
    fromSelf: bool,        // written by this bot
    author: UserId,
    content: string)

  datatype Outcome =
    | Ignored                 // nothing is posted
    | Played(verdict: Verdict) // a move was refereed
    | Relayed(text: string)    // AI chat: the model's reply is posted as it is
    | RelayFailed              // AI chat: the call failed and an error notice is posted

  datatype Handled = Handled(session: Session, outcome: Outcome)

  /** Messages the handler drops before it even looks up the channel's session. */
  predicate Filtered(ev: MessageEvent) {
    ev.fromSelf || !ev.inTextChannel || ev.topic == Some(StoryTopic)
  }

  /** A recognised topic decides the mode; any other topic leaves the stored mode. */
  function ForcedMode(topic: Option<string>, mode: Mode): (m: Mode)
    ensures topic == Some(GameTopic) ==> m == Game
    ensures topic == Some(AiTopic) ==> m == Ai
    ensures topic != Some(GameTopic) && topic != Some(AiTopic) ==> m == mode
  {
    if topic == Some(GameTopic) then Game
    else if topic == Some(AiTopic) then Ai
    else mode
  }

  /** Python truthiness of an optional id: `None` and 0 are both false. */
  predicate Truthy(id: Option<int>) {
    id.Some? && id.value != 0
  }

  /**
   * When the ticket's owner speaks, the pending "close ticket" prompt is
   * retracted (forgotten even if deleting it fails).
   */
  function RetractTicketPrompt(s: Session, author: UserId): (r: Session)
    ensures r.tempMsgId == None <==> s.tempMsgId == None || (Truthy(s.tempMsgId) && Truthy(s.ticketOwnerId) && s.ticketOwnerId == Some(author))
    ensures r.tempMsgId != None ==> r.tempMsgId == s.tempMsgId
    ensures r == s.(tempMsgId := r.tempMsgId)
  {
    if Truthy(s.ticketOwnerId) && author == s.ticketOwnerId.value && Truthy(s.tempMsgId) then s.(tempMsgId := None)
    else s
  }

  /** The rest of the message handler, once the event has passed the filters and the session is known. */
  function HandleMessage(s: Session, ev: MessageEvent, llm: Prompt -> LlmReply): (r: Handled)
    ensures r.session.ticketOwnerId == s.ticketOwnerId
    ensures r.session.tempMsgId == RetractTicketPrompt(s, ev.author).tempMsgId
    ensures StartsWith(ev.content, "!") ==> r == Handled(RetractTicketPrompt(s, ev.author), Ignored)
    ensures !StartsWith(ev.content, "!") ==> r.session.mode == ForcedMode(ev.topic, s.mode)
    ensures r.outcome.Played? <==> !StartsWith(ev.content, "!") && r.session.mode == Game
    ensures (r.session.gameLastWord, r.session.lastPlayerId) != (s.gameLastWord, s.lastPlayerId) ==>
      r.session.mode == Game && r.outcome == Played(Accepted)
    // idle: nothing but the ticket retraction happens
    ensures !StartsWith(ev.content, "!") && ForcedMode(ev.topic, s.mode) == Idle ==>
      r == Handled(RetractTicketPrompt(s, ev.author), Ignored)
    // game, whether forced by the topic or stored: the move is refereed by `GameStep`
    ensures !StartsWith(ev.content, "!") && ForcedMode(ev.topic, s.mode) == Game ==>
      var st := GameStep(RetractTicketPrompt(s, ev.author).(mode := Game), ev.author, ev.content, llm);
      r == Handled(st.session, Played(st.verdict))
    // AI chat: the message goes to the model verbatim and its reply, or the failure, is posted
    ensures !StartsWith(ev.content, "!") && ForcedMode(ev.topic, s.mode) == Ai ==>
      && r.session == RetractTicketPrompt(s, ev.author).(mode := Ai)
      && (llm(ChatPrompt(ev.content)).Answer? ==> r.outcome == Relayed(llm(ChatPrompt(ev.content)).text))
      && (llm(ChatPrompt(ev.content)).Failure? ==> r.outcome == RelayFailed)
  {
    var config := RetractTicketPrompt(s, ev.author);
    if StartsWith(ev.content, "!") then Handled(config, Ignored)
    else Dispatched(config, ev, llm)
  }

  /** The handler after the command prefix check: the topic forces the mode, then the mode decides. */
  function Dispatched(config: Session, ev: MessageEvent, llm: Prompt -> LlmReply): (r: Handled)
    ensures r.session.mode == ForcedMode(ev.topic, config.mode)
    ensures r.session.tempMsgId == config.tempMsgId && r.session.ticketOwnerId == config.ticketOwnerId
    ensures r.outcome.Played? <==> r.session.mode == Game
    ensures r.outcome == Ignored <==> r.session.mode == Idle
  {
    var config' := config.(mode := ForcedMode(ev.topic, config.mode));
    match config'.mode
    case Idle => Handled(config', Ignored)
    case Game =>
      var step := GameStep(config', ev.author, ev.content, llm);
      Handled(step.session, Played(step.verdict))
    case Ai =>
      match llm(ChatPrompt(ev.content))
      case Answer(text) => Handled(config', Relayed(text))
      case Failure => Handled(config', RelayFailed)
  }

  /** In an idle channel without a mode-forcing topic a message does nothing but retract a ticket prompt. */
  lemma IdleChannelIgnoresMessages(s: Session, ev: MessageEvent, llm: Prompt -> LlmReply)
    requires s.mode == Idle && ev.topic != Some(GameTopic) && ev.topic != Some(AiTopic)
    ensures HandleMessage(s, ev, llm) == Handled(RetractTicketPrompt(s, ev.author), Ignored)
  {
  }

  /** A game-topic channel referees every message that is not a command, whatever mode was stored. */
  lemma GameTopicReferees(s: Session, ev: MessageEvent, llm: Prompt -> LlmReply)
    requires ev.topic == Some(GameTopic) && !StartsWith(ev.content, "!")
    ensures var r := HandleMessage(s, ev, llm);
      var step := GameStep(RetractTicketPrompt(s, ev.author).(mode := Game), ev.author, ev.content, llm);
      r == Handled(step.session, Played(step.verdict))
  {
  }

  /** No message breaks the agreement between the chain fields. */
  lemma HandleMessageKeepsChainInvariant(s: Session, ev: MessageEvent, llm: Prompt -> LlmReply)
    requires ChainInvariant(s)
    ensures ChainInvariant(HandleMessage(s, ev, llm).session)
  {
    var config := RetractTicketPrompt(s, ev.author);
    if !StartsWith(ev.content, "!") && ForcedMode(ev.topic, config.mode) == Game {
      GameStepKeepsChainInvariant(config.(mode := Game), ev.author, ev.content, llm);
    }
  }

  /** The entries of the administrator's menu. */
  datatype MenuChoice =
    | IdleChoice          // switch the channel off
    | PanelChoice         // post the ticket panel
    | StoryChannelChoice  // make this the daily-story channel
    | StoryTestChoice     // run the test story
    | GameChoice          // word-chain game
    | AiChoice            // AI chat

  /**
   * The session after an administrator's selection: the mode is reset to
   * idle first, only the game and AI entries leave another mode, and only
   * the game entry starts a fresh chain.
   */
  function Select(s: Session, choice: MenuChoice): (r: Session)
    ensures r.mode == (match choice case GameChoice => Game case AiChoice => Ai case _ => Idle)
    ensures choice == GameChoice ==> r.gameLastWord == [] && r.lastPlayerId == None
    ensures choice != GameChoice ==> r.gameLastWord == s.gameLastWord && r.lastPlayerId == s.lastPlayerId
    ensures r.tempMsgId == s.tempMsgId && r.ticketOwnerId == s.ticketOwnerId
  {
    var config := s.(mode := Idle);
    match choice
    case GameChoice => config.(mode := Game, gameLastWord := "", lastPlayerId := None)
    case AiChoice => config.(mode := Ai)
    case IdleChoice => config.(mode := Idle)
    case _ => config
  }

  /** No selection breaks the agreement between the chain fields. */
  lemma SelectKeepsChainInvariant(s: Session, choice: MenuChoice)
    requires ChainInvariant(s)
    ensures ChainInvariant(Select(s, choice))
  {
  }

  /** The topic change a selection asks of the channel. */
  datatype TopicEdit = KeepTopic | SetTopic(topic: string) | ClearTopic

  /** The topics the idle entry clears. */
  const KnownTopics: seq<string> := [GameTopic, AiTopic, StoryTestTopic, LegacyPanelTopic]

  function TopicEditFor(choice: MenuChoice, topic: Option<string>): (e: TopicEdit)
    ensures e.SetTopic? ==> e.topic in [GameTopic, AiTopic, StoryTopic, StoryTestTopic, PanelTopic]
    ensures e.ClearTopic? ==> choice == IdleChoice
    // each mode entry leaves the channel with its own topic
    ensures choice == GameChoice ==> ApplyTopic(topic, e) == Some(GameTopic)
    ensures choice == AiChoice ==> ApplyTopic(topic, e) == Some(AiTopic)
    ensures choice == StoryTestChoice ==> ApplyTopic(topic, e) == Some(StoryTestTopic)
    ensures choice == PanelChoice ==> ApplyTopic(topic, e) == Some(PanelTopic)
    ensures choice == StoryChannelChoice ==> ApplyTopic(topic, e) == Some(StoryTopic)
    // the idle entry never leaves a topic that would force a mode back
    ensures choice == IdleChoice ==> ApplyTopic(topic, e) != Some(GameTopic) && ApplyTopic(topic, e) != Some(AiTopic)
  {
    match choice
    case StoryTestChoice => if topic != Some(StoryTestTopic) then SetTopic(StoryTestTopic) else KeepTopic
    case PanelChoice => if topic != Some(PanelTopic) then SetTopic(PanelTopic) else KeepTopic
    case StoryChannelChoice => SetTopic(StoryTopic)
    case GameChoice => if topic != Some(GameTopic) then SetTopic(GameTopic) else KeepTopic
    case AiChoice => if topic != Some(AiTopic) then SetTopic(AiTopic) else KeepTopic
    case IdleChoice => if topic.Some? && topic.value in KnownTopics then ClearTopic else KeepTopic
  }

  function ApplyTopic(topic: Option<string>, e: TopicEdit): Option<string> {
    match e
    case KeepTopic => topic
    case SetTopic(t) => Some(t)
    case ClearTopic => None
  }

  /**
   * A selection sticks: once its topic change has gone through, the next
   * message in the channel either is dropped as a story-channel message or
   * finds the selected mode (the topic does not force it back).
   */
  lemma SelectionSticks(s: Session, choice: MenuChoice, topic: Option<string>, ev: MessageEvent, llm: Prompt -> LlmReply)
    requires ev.topic == ApplyTopic(topic, TopicEditFor(choice, topic))
    requires !StartsWith(ev.content, "!")
    ensures choice == StoryChannelChoice ==> Filtered(ev)
    ensures Filtered(ev) || HandleMessage(Select(s, choice), ev, llm).session.mode == Select(s, choice).mode
  {
    var e := TopicEditFor(choice, topic);
    if choice == IdleChoice && e == KeepTopic && topic.Some? {
      assert topic.value != GameTopic && topic.value != AiTopic by {
        assert KnownTopics[0] == GameTopic && KnownTopics[1] == AiTopic;
      }
    }
  }
}

=== FILE: integrity.dfy ===
/**
 * The anti-cheat monitor behind the delete and edit handlers: a person's
 * message that carried the bot's ✅ and still reads as the live word is
 * called out, and the chain goes on from the same word.
 */
module Integrity {
  import opened Wrappers
  import opened PyText
  import opened Sessions
  import opened WordChain

  datatype Alarm =
    | Silent                                     // nothing is posted
    | CallOut(offender: UserId, nextChar: char)  // the public call-out, restating the next start
    | IndexError                                 // `game_last_word[-1]` on "": the handler raises

  /**
   * The decision the delete handler makes about the deleted message, and
   * the edit handler about the pre-edit version of the edited one.
   * It only reads the session.
   */
  function Monitor(s: Session, m: Message): (a: Alarm)
    ensures a != Silent <==> s.mode == Game && Qualifies(m) && Strip(m.content) == s.gameLastWord
    ensures a.CallOut? ==>
      && a.offender == m.author
      && s.gameLastWord != []
      && a.nextChar == s.gameLastWord[|s.gameLastWord| - 1]
    ensures a.IndexError? ==> s.gameLastWord == [] && Strip(m.content) == []
  {
    if m.authorIsBot then Silent
    else if s.mode != Game then Silent
    else if HasOwnCheck(m.reactions) && Strip(m.content) == s.gameLastWord then
      var lastWord := s.gameLastWord;
      if lastWord == [] then IndexError else CallOut(m.author, lastWord[|lastWord| - 1])
    else Silent
  }

  /**
   * Deleting or editing the message that was just accepted is always
   * called out, and the call-out names the character the next word must
   * start with.
   */
  lemma LiveWordTamperingCalledOut(s: Session, m: Message, llm: Prompt -> LlmReply)
    requires s.mode == Game && Qualifies(m)
    requires GameStep(s, m.author, m.content, llm).verdict.Accepted?
    ensures var w := Strip(m.content);
      |w| >= 2 && Monitor(GameStep(s, m.author, m.content, llm).session, m) == CallOut(m.author, w[|w| - 1])
  {
    AcceptedWordIsLong(s, m.author, m.content, llm);
  }

  /**
   * Once a follow-up has been accepted, tampering with the message of the
   * word it replaced goes unremarked: that word no longer matches.
   */
  lemma SupersededWordIgnored(s: Session, stale: Message, next: Message, llm: Prompt -> LlmReply)
    requires s.gameLastWord != [] && Strip(stale.content) == s.gameLastWord
    requires GameStep(s, next.author, next.content, llm).verdict.Accepted?
    ensures Monitor(GameStep(s, next.author, next.content, llm).session, stale) == Silent
  {
    AcceptedFollowUpObeysRules(s, next.author, next.content, llm);
  }

  /** The chain may come back to an earlier word: "ab", "ba", "ab" pass the local rules in turn. */
  lemma ChainCanRevisitWord()
    ensures LocalRejection(Session(Game, "ab", Some(1), None, None), 2, "ba") == None
    ensures LocalRejection(Session(Game, "ba", Some(2), None, None), 3, "ab") == None
  {
  }

  /**
   * The monitor compares text, not messages: once "ab", "ba", "ab" have
   * been accepted, deleting the FIRST "ab" message is called out although
   * a later message carries the live word.
   */
  lemma RevisitedWordCalledOut(first: Message)
    requires first.author == 1 && !first.authorIsBot && first.content == "ab"
    requires first.reactions == [Reaction(CheckMark, true)]
    ensures Monitor(Session(Game, "ab", Some(3), None, None), first) == CallOut(1, 'b')
  {
    assert HasOwnCheck(first.reactions) by { assert IsOwnCheck(first.reactions[0]); }
    StripKeepsStripped("ab");
  }
}

=== FILE: pytext.dfy ===
/**
 * The parts of Python's `str` that the bot relies on, over strings of
 * Unicode scalar values (Python indexes `str` by code point, as Dafny's
 * `string` does): `strip()`, `lstrip(chars)`, `replace(old, new)` and
 * `startswith(prefix)`.
 */
module PyText {

  /** `c.isspace()`: the code points Python treats as white space. */
  predicate IsSpace(c: char) {
    || ('\t' <= c <= '\r')
    || ('\U{1c}' <= c <= '\U{1f}')
    || c == ' '
    || c == '\U{85}'
    || c == '\U{a0}'
    || c == '\U{1680}'
    || ('\U{2000}' <= c <= '\U{200a}')
    || c == '\U{2028}'
    || c == '\U{2029}'
    || c == '\U{202f}'
    || c == '\U{205f}'
    || c == '\U{3000}'
  }

  /** Neither end of `s` is white space: `s` is its own `strip()`. */
  predicate IsStripped(s: string) {
    s == [] || (!IsSpace(s[0]) && !IsSpace(s[|s| - 1]))
  }

  /** Every code point of `s` is white space. */
  predicate AllSpace(s: string) {
    forall i :: 0 <= i < |s| ==> IsSpace(s[i])
  }

  /** `s.lstrip()`: the longest suffix of `s` not starting with white space. */
  function TrimLeft(s: string): (r: string)
    ensures |r| <= |s|
    ensures r == [] || !IsSpace(r[0])
  {
    if s != [] && IsSpace(s[0]) then TrimLeft(s[1..]) else s
  }

  /** `lstrip()` keeps a suffix. */
  lemma {:induction false} TrimLeftIsSuffix(s: string)
    ensures TrimLeft(s) == s[|s| - |TrimLeft(s)|..]
    decreases |s|
  {
    if s != [] && IsSpace(s[0]) {
      TrimLeftIsSuffix(s[1..]);
    }
  }

  /** `lstrip()` removes nothing but white space. */
  lemma {:induction false} TrimLeftDropsOnlySpace(s: string)
    ensures AllSpace(s[..|s| - |TrimLeft(s)|])
    decreases |s|
  {
    if s != [] && IsSpace(s[0]) {
      TrimLeftIsSuffix(s[1..]);
      TrimLeftDropsOnlySpace(s[1..]);
      var k := |s| - |TrimLeft(s)|;
      assert forall i :: 1 <= i < k ==> s[i] == s[1..][i - 1];
    }
  }

  /** `s.rstrip()`: the longest prefix of `s` not ending with white space. */
  function TrimRight(s: string): (r: string)
    ensures |r| <= |s|
    ensures r == [] || !IsSpace(r[|r| - 1])
  {
    if s != [] && IsSpace(s[|s| - 1]) then TrimRight(s[..|s| - 1]) else s
  }

  /** `rstrip()` keeps a prefix. */
  lemma {:induction false} TrimRightIsPrefix(s: string)
    ensures TrimRight(s) == s[..|TrimRight(s)|]
    decreases |s|
  {
    if s != [] && IsSpace(s[|s| - 1]) {
      TrimRightIsPrefix(s[..|s| - 1]);
    }
  }

  /** `rstrip()` removes nothing but white space. */
  lemma {:induction false} TrimRightDropsOnlySpace(s: string)
    ensures AllSpace(s[|TrimRight(s)|..])
    decreases |s|
  {
    if s != [] && IsSpace(s[|s| - 1]) {
      TrimRightIsPrefix(s[..|s| - 1]);
      TrimRightDropsOnlySpace(s[..|s| - 1]);
      var k := |TrimRight(s)|;
      assert forall i :: k <= i < |s| - 1 ==> s[i] == s[..|s| - 1][i];
    }
  }

  /**
   * `s.strip()`: `s` with its leading and trailing white space removed.
   * The result is the infix of `s` that starts after the leading blanks.
   */
  function Strip(s: string): (r: string)
    ensures IsStripped(r)
    ensures |r| <= |s|
  {
    var q := TrimLeft(s);
    TrimRightIsPrefix(q);
    TrimRight(q)
  }

  lemma {:induction false} TrimLeftPastBlanks(a: string, t: string)
    requires AllSpace(a)
    requires t == [] || !IsSpace(t[0])
    ensures TrimLeft(a + t) == t
    decreases |a|
  {
    if a != [] {
      assert (a + t)[1..] == a[1..] + t;
      TrimLeftPastBlanks(a[1..], t);
    } else {
      assert a + t == t;
    }
  }

  lemma {:induction false} TrimRightPastBlanks(t: string, b: string)
    requires AllSpace(b)
    requires t == [] || !IsSpace(t[|t| - 1])
    ensures TrimRight(t + b) == t
    decreases |b|
  {
    if b != [] {
      assert (t + b)[..|t + b| - 1] == t + b[..|b| - 1];
      TrimRightPastBlanks(t, b[..|b| - 1]);
    } else {
      assert t + b == t;
    }
  }

  /**
   * `strip()` is determined by what it keeps: surrounding any stripped
   * text with white space on both sides and stripping gives the text back.
   */
  lemma StripRecovers(a: string, t: string, b: string)
    requires AllSpace(a) && AllSpace(b) && IsStripped(t)
    ensures Strip(a + t + b) == t
  {
    if t == [] {
      assert AllSpace(a + b);
      TrimLeftPastBlanks(a + b, []);
      assert a + b + [] == a + b;
      assert a + t + b == a + b;
      assert TrimLeft(a + t + b) == [];
    } else {
      assert a + t + b == a + (t + b);
      TrimLeftPastBlanks(a, t + b);
      TrimRightPastBlanks(t, b);
    }
  }

  /** Stripping text that has no white space at either end changes nothing. */
  lemma StripKeepsStripped(s: string)
    requires IsStripped(s)
    ensures Strip(s) == s
  {
    assert TrimLeft(s) == s;
  }

  /** `strip()` is idempotent. */
  lemma StripIdempotent(s: string)
    ensures Strip(Strip(s)) == Strip(s)
  {
    StripKeepsStripped(Strip(s));
  }

  /** `s.lstrip(chars)`: drop the leading code points that occur in `chars`. */
  function LStripChars(s: string, chars: string): (r: string)
    ensures |r| <= |s| && r == s[|s| - |r|..]
    ensures forall i :: 0 <= i < |s| - |r| ==> s[i] in chars
    ensures r == [] || r[0] !in chars
  {
    if s != [] && s[0] in chars then LStripChars(s[1..], chars) else s
  }

  /** `s.startswith(p)`. */
  predicate StartsWith(s: string, p: string) {
    |p| <= |s| && s[..|p|] == p
  }

  /** `p in s`: some suffix of `s` starts with `p`. */
  predicate Occurs(p: string, s: string)
    decreases |s|
  {
    StartsWith(s, p) || (s != [] && Occurs(p, s[1..]))
  }

  /**
   * `s.replace(pat, rep)` for a non-empty `pat`: one left-to-right pass that
   * replaces every non-overlapping occurrence of `pat`.
   */
  function ReplaceAll(s: string, pat: string, rep: string): (r: string)
    requires pat != []
    ensures !Occurs(pat, s) ==> r == s
    ensures |rep| <= |pat| ==> |r| <= |s|
    decreases |s|
  {
    if s == [] then []
    else if StartsWith(s, pat) then rep + ReplaceAll(s[|pat|..], pat, rep)
    else [s[0]] + ReplaceAll(s[1..], pat, rep)
  }

  /**
   * The leftmost occurrence of `pat` is replaced and the scan resumes right
   * after it: when no occurrence starts inside `a`, the text `a` is copied
   * and `pat` becomes `rep`. Together with the no-occurrence clause of
   * `ReplaceAll` this fixes Python's leftmost, non-overlapping replacement.
   */
  lemma {:induction false} ReplaceFirstOccurrence(a: string, pat: string, b: string, rep: string)
    requires pat != []
    requires !Occurs(pat, a + pat[..|pat| - 1])
    ensures ReplaceAll(a + pat + b, pat, rep) == a + rep + ReplaceAll(b, pat, rep)
    decreases |a|
  {
    if a == [] {
      ReplaceAtOccurrence(pat + b, pat, rep);
      assert (pat + b)[|pat|..] == b;
    } else {
      NoOccurrenceInside(a, pat, b);
      ReplaceFirstOccurrence(a[1..], pat, b, rep);
      ReplaceAfterCopy(a, pat, b, rep, ReplaceAll(b, pat, rep));
    }
  }

  /** Copying the first character of `a` before the rest has been replaced. */
  lemma ReplaceAfterCopy(a: string, pat: string, b: string, rep: string, tail: string)
    requires a != [] && pat != []
    requires !StartsWith(a + pat + b, pat)
    requires ReplaceAll(a[1..] + pat + b, pat, rep) == a[1..] + rep + tail
    ensures ReplaceAll(a + pat + b, pat, rep) == a + rep + tail
  {
    var s := a + pat + b;
    ReplacePastCharacter(s, pat, rep);
    assert s[1..] == a[1..] + pat + b;
    ConsThenConcat(a, rep, tail);
  }

  lemma ConsThenConcat(a: string, y: string, z: string)
    requires a != []
    ensures [a[0]] + (a[1..] + y + z) == a + y + z
  {
    assert [a[0]] + a[1..] == a;
  }

  /** At an occurrence, the pattern becomes the replacement. */
  lemma ReplaceAtOccurrence(s: string, pat: string, rep: string)
    requires pat != [] && StartsWith(s, pat)
    ensures ReplaceAll(s, pat, rep) == rep + ReplaceAll(s[|pat|..], pat, rep)
  {
  }

  /** Where no occurrence starts, one character is copied. */
  lemma ReplacePastCharacter(s: string, pat: string, rep: string)
    requires pat != [] && s != [] && !StartsWith(s, pat)
    ensures ReplaceAll(s, pat, rep) == [s[0]] + ReplaceAll(s[1..], pat, rep)
  {
  }

  /** No occurrence starting inside a non-empty `a`: neither at its start nor further on. */
  lemma NoOccurrenceInside(a: string, pat: string, b: string)
    requires pat != [] && a != []
    requires !Occurs(pat, a + pat[..|pat| - 1])
    ensures !StartsWith(a + pat + b, pat)
    ensures !Occurs(pat, a[1..] + pat[..|pat| - 1])
  {
    var x := a + pat[..|pat| - 1];
    assert (a + pat + b)[..|pat|] == x[..|pat|];
    assert x[1..] == a[1..] + pat[..|pat| - 1];
  }

  /**
   * Python's `replace` is a single pass, so deleting "NO" from "NNOO"
   * leaves a fresh "NO" behind.
   */
  lemma ReplaceIsSinglePass()
    ensures ReplaceAll("NNOO", "NO", "") == "NO"
    ensures Occurs("NO", ReplaceAll("NNOO", "NO", ""))
  {
    assert "NNOO"[..2][1] != "NO"[1];
    assert "NNOO"[1..] == "NOO";
    assert StartsWith("NOO", "NO");
    assert "NOO"[2..] == "O";
    assert !StartsWith("O", "NO");
    assert "O"[1..] == [];
    assert StartsWith("NO", "NO");
  }
}

=== FILE: recovery.dfy ===
/**
 * Restart recovery: the bot keeps no database, so at start-up every
 * channel whose topic marks it as a game channel is put back in game mode
 * and its chain is re-read from the newest message that carries the
 * bot's ✅.
 */
module Recovery {
  import opened Wrappers
  import opened PyText
  import opened Sessions
  import opened WordChain

  /** How many of the newest messages recovery looks at. */
  const RecoveryLimit: nat := 10

  /** The position of the first message in `h` that a person wrote and the bot ✅-ed. */
  function FirstQualifying(h: seq<Message>): (r: Option<nat>)
    ensures r.Some? ==> r.value < |h| && Qualifies(h[r.value])
    ensures r.Some? ==> forall j :: 0 <= j < r.value ==> !Qualifies(h[j])
    ensures r.None? ==> forall j :: 0 <= j < |h| ==> !Qualifies(h[j])
  {
    if h == [] then None
    else if Qualifies(h[0]) then Some(0)
    else match FirstQualifying(h[1..])
      case None => None
      case Some(i) => Some(i + 1)
  }

  /**
   * The session after recovery has read the channel's newest-first `history`:
   * game mode, and the chain either as it was or taken from a person-written
   * ✅-ed message among the ten newest.
   */
  function Recovered(s: Session, history: seq<Message>): (r: Session)
    ensures r.mode == Game && r.tempMsgId == s.tempMsgId && r.ticketOwnerId == s.ticketOwnerId
    ensures || r == s.(mode := Game)
            || exists i :: 0 <= i < |history| && i < RecoveryLimit && Qualifies(history[i]) &&
                 r == s.(mode := Game, gameLastWord := Strip(history[i].content), lastPlayerId := Some(history[i].author))
  {
    var window := Newest(history, RecoveryLimit);
    match FirstQualifying(window)
    case None => s.(mode := Game)
    case Some(i) =>
      assert window[i] == history[i];
      s.(mode := Game, gameLastWord := Strip(window[i].content), lastPlayerId := Some(window[i].author))
  }

  /** Recovery visits the channel: a game-topic channel is recovered, any other is left alone. */
  function RecoverChannelIn(table: map<ChannelId, Session>, ch: ChannelListing): (r: map<ChannelId, Session>)
    ensures ch.topic != Some(GameTopic) ==> r == table
    ensures ch.topic == Some(GameTopic) ==> r.Keys == table.Keys + {ch.id} && r[ch.id].mode == Game
    ensures ch.topic == Some(GameTopic) ==> r[ch.id] == Recovered(Lookup(table, ch.id), ch.history)
    ensures forall c :: c in table && c != ch.id ==> c in r && r[c] == table[c]
  {
    if ch.topic == Some(GameTopic) then table[ch.id := Recovered(Lookup(table, ch.id), ch.history)] else table
  }

  /** Some channel of `listing` with id `c` has the game topic. */
  predicate GameChannelIn(listing: seq<ChannelListing>, c: ChannelId) {
    exists i :: 0 <= i < |listing| && listing[i].id == c && listing[i].topic == Some(GameTopic)
  }

  /**
   * The table after recovery has visited the channels of `listing` in order:
   * every game-topic channel has a session in game mode, and only those
   * channels gain or change a session.
   */
  function RecoverAll(table: map<ChannelId, Session>, listing: seq<ChannelListing>): (r: map<ChannelId, Session>)
    ensures forall c :: c in r <==> c in table || GameChannelIn(listing, c)
    ensures forall c :: GameChannelIn(listing, c) ==> r[c].mode == Game
    ensures forall c :: c in table && !GameChannelIn(listing, c) ==> r[c] == table[c]
    decreases |listing|
  {
    if listing == [] then table
    else
      var init := listing[..|listing| - 1];
      var ch := listing[|listing| - 1];
      GameChannelInSnoc(listing);
      RecoverChannelIn(RecoverAll(table, init), ch)
  }

  /** No two channels of the listing share an id. */
  predicate DistinctIds(listing: seq<ChannelListing>) {
    forall p, q :: 0 <= p < q < |listing| ==> listing[p].id != listing[q].id
  }

  /**
   * After start-up recovery, each game-topic channel holds the session that
   * recovery reads from its own history, starting from what the table held.
   */
  lemma {:induction false} RecoverAllAt(table: map<ChannelId, Session>, listing: seq<ChannelListing>, i: nat)
    requires DistinctIds(listing)
    requires i < |listing| && listing[i].topic == Some(GameTopic)
    ensures RecoverAll(table, listing)[listing[i].id] == Recovered(Lookup(table, listing[i].id), listing[i].history)
    decreases |listing|
  {
    var init := listing[..|listing| - 1];
    var ch := listing[|listing| - 1];
    var before := RecoverAll(table, init);
    assert DistinctIds(init) by {
      forall p, q | 0 <= p < q < |init|
        ensures init[p].id != init[q].id
      {
        assert init[p] == listing[p] && init[q] == listing[q];
      }
    }
    if i == |listing| - 1 {
      assert !GameChannelIn(init, ch.id) by {
        forall j | 0 <= j < |init|
          ensures init[j].id != ch.id
        {
          assert init[j] == listing[j];
        }
      }
      assert Lookup(before, ch.id) == Lookup(table, ch.id);
    } else {
      assert init[i] == listing[i];
      assert GameChannelIn(init, listing[i].id);
      assert listing[i].id != ch.id;
      RecoverAllAt(table, init, i);
    }
  }

  /** The game channels of a listing are those of all but its last channel, plus the last if it is one. */
  lemma GameChannelInSnoc(listing: seq<ChannelListing>)
    requires listing != []
    ensures var ch := listing[|listing| - 1];
      forall c :: GameChannelIn(listing, c) <==>
        GameChannelIn(listing[..|listing| - 1], c) || (c == ch.id && ch.topic == Some(GameTopic))
  {
    var init := listing[..|listing| - 1];
    forall c | GameChannelIn(listing, c)
      ensures GameChannelIn(init, c) || (c == listing[|listing| - 1].id && listing[|listing| - 1].topic == Some(GameTopic))
    {
      var i :| 0 <= i < |listing| && listing[i].id == c && listing[i].topic == Some(GameTopic);
      if i < |init| {
        assert init[i] == listing[i];
      }
    }
    forall c | GameChannelIn(init, c)
      ensures GameChannelIn(listing, c)
    {
      var i :| 0 <= i < |init| && init[i].id == c && init[i].topic == Some(GameTopic);
      assert listing[i] == init[i];
    }
  }

  /**
   * Recovery takes the newest accepted move inside the window: when the
   * messages newer than `m` are all bot messages or un-✅-ed, and fewer
   * than ten, `m`'s trimmed text and author become the chain.
   */
  lemma {:induction false} RecoveryPicksNewestAccepted(s: Session, newer: seq<Message>, m: Message, older: seq<Message>)
    requires |newer| < RecoveryLimit
    requires forall j :: 0 <= j < |newer| ==> !Qualifies(newer[j])
    requires Qualifies(m)
    ensures Recovered(s, newer + [m] + older) == s.(mode := Game, gameLastWord := Strip(m.content), lastPlayerId := Some(m.author))
  {
    var h := newer + [m] + older;
    var window := Newest(h, RecoveryLimit);
    assert window[|newer|] == m;
    assert forall j :: 0 <= j < |newer| ==> window[j] == newer[j];
    assert FirstQualifying(window) == Some(|newer|);
  }

  /** Recovery stops at the first qualifying message among the newest ten. */
  lemma RecoveredAt(s: Session, history: seq<Message>, i: nat)
    requires i < |history| && i < RecoveryLimit
    requires forall j :: 0 <= j < i ==> !Qualifies(history[j])
    requires Qualifies(history[i])
    ensures Recovered(s, history) ==
      s.(mode := Game, gameLastWord := Strip(history[i].content), lastPlayerId := Some(history[i].author))
  {
    assert history == history[..i] + [history[i]] + history[i + 1..];
    RecoveryPicksNewestAccepted(s, history[..i], history[i], history[i + 1..]);
  }

  /** Without an accepted move among the ten newest messages, the chain fields stay as they were. */
  lemma RecoveryWithoutAcceptedKeepsChain(s: Session, history: seq<Message>)
    requires forall j :: 0 <= j < |history| && j < RecoveryLimit ==> !Qualifies(history[j])
    ensures Recovered(s, history) == s.(mode := Game)
  {
    var window := Newest(history, RecoveryLimit);
    assert forall j :: 0 <= j < |window| ==> !Qualifies(window[j]);
  }

  /** Running recovery twice on the same history gives what running it once does. */
  lemma RecoveryIdempotent(s: Session, history: seq<Message>)
    ensures Recovered(Recovered(s, history), history) == Recovered(s, history)
  {
  }

  /**
   * Recovery keeps the chain fields in agreement provided the move it
   * finds has some text once trimmed.
   */
  lemma RecoveryKeepsChainInvariant(s: Session, history: seq<Message>)
    requires ChainInvariant(s)
    requires var w := Newest(history, RecoveryLimit);
      FirstQualifying(w).Some? ==> Strip(w[FirstQualifying(w).value].content) != []
    ensures ChainInvariant(Recovered(s, history))
  {
  }

  /**
   * After a restart, recovery restores the chain that the last accepted
   * move left, provided that move's ✅-ed message is still among the ten
   * newest and no newer message carries a ✅.
   */
  lemma RestartRestoresChain(s: Session, m: Message, newer: seq<Message>, older: seq<Message>, llm: Prompt -> LlmReply)
    requires Qualifies(m) && GameStep(s, m.author, m.content, llm).verdict.Accepted?
    requires |newer| < RecoveryLimit
    requires forall j :: 0 <= j < |newer| ==> !Qualifies(newer[j])
    ensures var played := GameStep(s, m.author, m.content, llm).session;
      var back := Recovered(DefaultSession, newer + [m] + older);
      back.gameLastWord == played.gameLastWord && back.lastPlayerId == played.lastPlayerId
  {
    RecoveryPicksNewestAccepted(DefaultSession, newer, m, older);
  }
}

=== FILE: sessions.dfy ===
/**
 * The per-channel session record kept in the bot's `channel_data` table,
 * the channel topics the bot recognises, and the chat messages it reads
 * back from a channel's history.
 */
module Sessions {
  import opened Wrappers
  import opened PyText

  type ChannelId = int
  type UserId = int
  type MessageId = int

  /** The values the bot ever stores under "mode". */
  datatype Mode = Idle | Game | Ai

  /** One entry of `channel_data`. */
  datatype Session = Session(
    mode: Mode,
    gameLastWord: string,          // the last accepted word, "" before the first one
    lastPlayerId: Option<UserId>,  // the author of gameLastWord
    tempMsgId: Option<MessageId>,  // the ticket's "close" prompt still to be retracted
    ticketOwnerId: Option<UserId>) // who opened the ticket this channel serves

  /** The record `get_channel_config` creates for a channel it has not seen. */
  const DefaultSession := Session(Idle, "", None, None, None)

  /** What `get_channel_config(cid)` returns, whether or not it had to create it. */
  function Lookup(table: map<ChannelId, Session>, cid: ChannelId): Session {
    if cid in table then table[cid] else DefaultSession
  }

  /**
   * The table after `get_channel_config(cid)`: the channel has a record,
   * a fresh default one only if it had none, and no other entry changes.
   */
  function Materialize(table: map<ChannelId, Session>, cid: ChannelId): (r: map<ChannelId, Session>)
    ensures r.Keys == table.Keys + {cid}
    ensures r[cid] == (if cid in table then table[cid] else DefaultSession)
    ensures forall c :: c in table ==> r[c] == table[c]
  {
    if cid in table then table else table[cid := DefaultSession]
  }

  /** Creating the record on demand is the same as storing what a lookup returns. */
  lemma MaterializeIsStore(table: map<ChannelId, Session>, cid: ChannelId)
    ensures Materialize(table, cid) == table[cid := Lookup(table, cid)]
  {
  }

  /** Asking for a channel's record a second time changes nothing. */
  lemma MaterializeIdempotent(table: map<ChannelId, Session>, cid: ChannelId)
    ensures Materialize(Materialize(table, cid), cid) == Materialize(table, cid)
    ensures Lookup(Materialize(table, cid), cid) == Lookup(table, cid)
  {
  }

  /** Channel topics that drive the bot's behaviour. */
  const GameTopic: string := "【接龍模式】"
  const AiTopic: string := "【AI聊天模式】"
  const StoryTopic: string := "【故事專用】每天早上8點，擷取過去24小時內接龍頻道的所有詞彙，編成一個故事。"
  const StoryTestTopic: string := "【故事測試】"
  const PanelTopic: string := "【請勿濫用客服單】"
  const LegacyPanelTopic: string := "【客服面板】"

  /** The bot's accept marker. */
  const CheckMark: string := "✅"

  datatype Reaction = Reaction(emoji: string, me: bool)

  /** A message as the bot reads it back from a channel's history or an event. */
  datatype Message = Message(
    author: UserId,
    authorIsBot: bool,
    content: string,
    reactions: seq<Reaction>,
    createdAt: int)

  /** A text channel as a scan over the server sees it; `history` is newest first. */
  datatype ChannelListing = ChannelListing(id: ChannelId, topic: Option<string>, history: seq<Message>)

  /** `channel.history(limit=n)`: the `n` newest messages of a newest-first history. */
  function Newest(history: seq<Message>, n: nat): (w: seq<Message>)
    ensures |w| == if |history| < n then |history| else n
    ensures w == history[..|w|]
  {
    if |history| <= n then history else history[..n]
  }

  /** The reaction is a ✅ that the bot itself put there. */
  predicate IsOwnCheck(r: Reaction) {
    r.me && r.emoji == CheckMark
  }

  /** Some reaction on the message is the bot's own ✅: the move was accepted. */
  predicate HasOwnCheck(reactions: seq<Reaction>) {
    exists i :: 0 <= i < |reactions| && IsOwnCheck(reactions[i])
  }

  /**
   * The reaction scan every handler repeats: walk the reactions and stop
   * at the first ✅ of the bot's own.
   */
  method ScanReactions(reactions: seq<Reaction>) returns (isValid: bool)
    ensures isValid == HasOwnCheck(reactions)
  {
    isValid := false;
    var i := 0;
    while i < |reactions|
      invariant 0 <= i <= |reactions|
      invariant forall j :: 0 <= j < i ==> !IsOwnCheck(reactions[j])
    {
      if reactions[i].me && reactions[i].emoji == CheckMark {
        isValid := true;
        break;
      }
      i := i + 1;
    }
  }

  /** A message history scans treat as an accepted move: a person's, carrying the bot's ✅. */
  predicate Qualifies(m: Message) {
    !m.authorIsBot && HasOwnCheck(m.reactions)
  }

  /**
   * The chain fields agree with each other: a word is recorded exactly
   * when its author is, and the word is already stripped.
   */
  predicate ChainInvariant(s: Session) {
    && (s.gameLastWord == [] <==> s.lastPlayerId == None)
    && IsStripped(s.gameLastWord)
  }
}

=== FILE: story.dfy ===
/**
 * The word collection behind the story features: the "test story" menu
 * entry gathers at most ten ✅-ed words, the daily story gathers the
 * ✅-ed words of the last day and sizes the story by their number.
 * The story text itself comes from the language model and is not modelled.
 */
module Story {
  import opened Wrappers
  import opened Sessions

  const TestStoryWordLimit: nat := 10
  const TestStoryHistoryLimit: nat := 500

  /** The requested story length in characters: fifty per word, clamped to 200..2000. */
  function TargetLength(wordCount: int): (r: int)
    ensures 200 <= r <= 2000
    ensures 200 <= 50 * wordCount <= 2000 ==> r == 50 * wordCount
    ensures 50 * wordCount < 200 ==> r == 200
    ensures 50 * wordCount > 2000 ==> r == 2000
  {
    var rawLength := wordCount * 50;
    var capped := if rawLength < 2000 then rawLength else 2000;
    if 200 < capped then capped else 200
  }

  /** The texts of the person-written, ✅-ed messages of `h`, in order. */
  function CheckedWords(h: seq<Message>): (ws: seq<string>)
    ensures |ws| <= |h|
  {
    if h == [] then []
    else CheckedWords(h[..|h| - 1]) + (if Qualifies(h[|h| - 1]) then [h[|h| - 1].content] else [])
  }

  lemma {:induction false} CheckedWordsAppend(a: seq<Message>, b: seq<Message>)
    ensures CheckedWords(a + b) == CheckedWords(a) + CheckedWords(b)
    decreases |b|
  {
    if b == [] {
      assert a + b == a;
    } else {
      assert (a + b)[..|a + b| - 1] == a + b[..|b| - 1];
      CheckedWordsAppend(a, b[..|b| - 1]);
    }
  }

  /** The message the `k`-th checked word was taken from. */
  lemma {:induction false} CheckedWordSource(h: seq<Message>, k: nat) returns (j: nat)
    requires k < |CheckedWords(h)|
    ensures j < |h| && Qualifies(h[j]) && h[j].content == CheckedWords(h)[k]
    decreases |h|
  {
    var init := h[..|h| - 1];
    if k < |CheckedWords(init)| {
      j := CheckedWordSource(init, k);
    } else {
      j := |h| - 1;
    }
  }

  /** A channel the test story reads: a game channel or a story-test channel. */
  predicate StorySource(ch: ChannelListing) {
    ch.topic == Some(GameTopic) || ch.topic == Some(StoryTestTopic)
  }

  /** The histories of the source channels of `listing`, in listing order. */
  function TestStorySources(listing: seq<ChannelListing>): (hs: seq<seq<Message>>)
    ensures |hs| <= |listing|
    ensures hs == [] <==> forall i :: 0 <= i < |listing| ==> !StorySource(listing[i])
  {
    if listing == [] then []
    else
      var ch := listing[|listing| - 1];
      TestStorySources(listing[..|listing| - 1]) + (if StorySource(ch) then [ch.history] else [])
  }

  /** A one-channel listing is read exactly when that channel is a source. */
  lemma TestStorySourcesOne(ch: ChannelListing)
    ensures TestStorySources([ch]) == (if StorySource(ch) then [ch.history] else [])
  {
    assert [ch][..0] == [];
  }

  /** The sources of two listings one after the other are those of each, in listing order. */
  lemma {:induction false} TestStorySourcesAppend(a: seq<ChannelListing>, b: seq<ChannelListing>)
    ensures TestStorySources(a + b) == TestStorySources(a) + TestStorySources(b)
    decreases |b|
  {
    if b == [] {
      assert a + b == a;
    } else {
      assert (a + b)[..|a + b| - 1] == a + b[..|b| - 1];
      TestStorySourcesAppend(a, b[..|b| - 1]);
    }
  }

  /** Every history the test story reads belongs to a source channel of the listing. */
  lemma {:induction false} TestStorySourceOf(listing: seq<ChannelListing>, k: nat) returns (i: nat)
    requires k < |TestStorySources(listing)|
    ensures i < |listing| && StorySource(listing[i]) && listing[i].history == TestStorySources(listing)[k]
    decreases |listing|
  {
    var init := listing[..|listing| - 1];
    if k < |TestStorySources(init)| {
      i := TestStorySourceOf(init, k);
    } else {
      i := |listing| - 1;
    }
  }

  /** Every source channel of the listing is read: its history is among the sources. */
  lemma {:induction false} SourceChannelIsRead(listing: seq<ChannelListing>, i: nat)
    requires i < |listing| && StorySource(listing[i])
    ensures listing[i].history in TestStorySources(listing)
    decreases |listing|
  {
    var init := listing[..|listing| - 1];
    if i < |listing| - 1 {
      SourceChannelIsRead(init, i);
    }
  }

  /** Every ✅-ed word among the 500 newest messages of each source channel, channel by channel. */
  function AllTestWords(hs: seq<seq<Message>>): seq<string> {
    if hs == [] then []
    else AllTestWords(hs[..|hs| - 1]) + CheckedWords(Newest(hs[|hs| - 1], TestStoryHistoryLimit))
  }

  /**
   * The `k`-th test word is the text of a person-written ✅-ed message among
   * the 500 newest of one of the channels.
   */
  lemma {:induction false} AllTestWordSource(hs: seq<seq<Message>>, k: nat) returns (c: nat, j: nat)
    requires k < |AllTestWords(hs)|
    ensures c < |hs| && j < |hs[c]| && j < TestStoryHistoryLimit
    ensures Qualifies(hs[c][j]) && hs[c][j].content == AllTestWords(hs)[k]
    decreases |hs|
  {
    var init := hs[..|hs| - 1];
    if k < |AllTestWords(init)| {
      c, j := AllTestWordSource(init, k);
    } else {
      c := |hs| - 1;
      var window := Newest(hs[c], TestStoryHistoryLimit);
      j := CheckedWordSource(window, k - |AllTestWords(init)|);
      assert window[j] == hs[c][j];
    }
  }

  /** The first `n` elements of `s`, or all of them. */
  function Take(s: seq<string>, n: nat): (r: seq<string>)
    ensures |r| <= n && |r| <= |s| && r == s[..|r|]
    ensures |s| <= n ==> r == s
    ensures |s| >= n ==> |r| == n
  {
    if |s| <= n then s else s[..n]
  }

  /** Once `n` elements have been taken, whatever follows is ignored. */
  lemma TakeFull(s: seq<string>, t: seq<string>, n: nat)
    requires |Take(s, n)| >= n
    ensures Take(s + t, n) == Take(s, n)
  {
    assert (s + t)[..n] == s[..n];
  }

  /**
   * The "test story" word collection: scan the source channels in order,
   * the 500 newest messages of each, newest first, and keep the texts of
   * person-written ✅-ed messages until ten are collected. `found` says
   * whether there was any source channel at all.
   */
  method CollectTestWords(listing: seq<ChannelListing>) returns (found: bool, words: seq<string>)
    ensures found == (TestStorySources(listing) != [])
    ensures words == Take(AllTestWords(TestStorySources(listing)), TestStoryWordLimit)
  {
    var gameChannels: seq<seq<Message>> := [];
    var c := 0;
    while c < |listing|
      invariant 0 <= c <= |listing|
      invariant gameChannels == TestStorySources(listing[..c])
    {
      assert listing[..c + 1][..c] == listing[..c];
      if listing[c].topic == Some(GameTopic) || listing[c].topic == Some(StoryTestTopic) {
        gameChannels := gameChannels + [listing[c].history];
      }
      c := c + 1;
    }
    assert listing[..|listing|] == listing;
    found := gameChannels != [];
    words := [];
    if !found {
      return;
    }
    var k := 0;
    while k < |gameChannels|
      invariant 0 <= k <= |gameChannels|
      invariant words == Take(AllTestWords(gameChannels[..k]), TestStoryWordLimit)
    {
      if |words| >= TestStoryWordLimit {
        TakeFull(AllTestWords(gameChannels[..k]), AllTestWordsFrom(gameChannels, k), TestStoryWordLimit);
        AllTestWordsSplit(gameChannels, k);
        return;
      }
      var window := Newest(gameChannels[k], TestStoryHistoryLimit);
      assert words == AllTestWords(gameChannels[..k]);
      words := CollectFromChannel(words, window);
      assert gameChannels[..k + 1][..k] == gameChannels[..k];
      k := k + 1;
    }
    assert gameChannels[..|gameChannels|] == gameChannels;
  }

  /**
   * The scan of one channel's newest messages inside the test-story
   * collection: keep appending ✅-ed texts of people until ten are held.
   */
  method CollectFromChannel(collected: seq<string>, window: seq<Message>) returns (words: seq<string>)
    requires |collected| <= TestStoryWordLimit
    ensures words == Take(collected + CheckedWords(window), TestStoryWordLimit)
  {
    words := collected;
    var j := 0;
    while j < |window|
      invariant 0 <= j <= |window|
      invariant words == Take(collected + CheckedWords(window[..j]), TestStoryWordLimit)
    {
      if |words| >= TestStoryWordLimit {
        break;
      }
      var msg := window[j];
      CheckedWordsSnoc(window, j);
      if msg.authorIsBot {
        j := j + 1;
        continue;
      }
      var isValid := ScanReactions(msg.reactions);
      if isValid {
        words := words + [msg.content];
      }
      j := j + 1;
    }
    StoppedScan(collected, window, j);
  }

  /** One more message extends the checked words by at most its own text. */
  lemma CheckedWordsSnoc(window: seq<Message>, j: nat)
    requires j < |window|
    ensures CheckedWords(window[..j + 1]) ==
      CheckedWords(window[..j]) + (if Qualifies(window[j]) then [window[j].content] else [])
  {
    assert window[..j + 1][..j] == window[..j];
  }

  /** A scan that stopped at `j`, because ten words were held or the window ended, took everything it needed. */
  lemma StoppedScan(collected: seq<string>, window: seq<Message>, j: nat)
    requires j <= |window|
    requires j < |window| ==> |Take(collected + CheckedWords(window[..j]), TestStoryWordLimit)| >= TestStoryWordLimit
    ensures Take(collected + CheckedWords(window[..j]), TestStoryWordLimit) == Take(collected + CheckedWords(window), TestStoryWordLimit)
  {
    assert window == window[..j] + window[j..];
    CheckedWordsAppend(window[..j], window[j..]);
    assert collected + CheckedWords(window) == (collected + CheckedWords(window[..j])) + CheckedWords(window[j..]);
    if j < |window| {
      TakeFull(collected + CheckedWords(window[..j]), CheckedWords(window[j..]), TestStoryWordLimit);
    } else {
      assert window[..j] == window;
    }
  }

  /** The words of the channels from position `k` on. */
  function AllTestWordsFrom(hs: seq<seq<Message>>, k: nat): seq<string>
    requires k <= |hs|
  {
    AllTestWords(hs[k..])
  }

  lemma {:induction false} AllTestWordsAppend(a: seq<seq<Message>>, b: seq<seq<Message>>)
    ensures AllTestWords(a + b) == AllTestWords(a) + AllTestWords(b)
    decreases |b|
  {
    if b == [] {
      assert a + b == a;
    } else {
      assert (a + b)[..|a + b| - 1] == a + b[..|b| - 1];
      AllTestWordsAppend(a, b[..|b| - 1]);
    }
  }

  lemma AllTestWordsSplit(hs: seq<seq<Message>>, k: nat)
    requires k <= |hs|
    ensures AllTestWords(hs) == AllTestWords(hs[..k]) + AllTestWordsFrom(hs, k)
  {
    assert hs == hs[..k] + hs[k..];
    AllTestWordsAppend(hs[..k], hs[k..]);
  }

  /**
   * The daily story's scan of a newest-first history: bot messages are
   * skipped wherever they are, the first person-written message older than
   * `cutoff` ends the scan, and the ✅-ed texts before it are kept in order.
   */
  function DailyWords(h: seq<Message>, cutoff: int): (ws: seq<string>)
    ensures |ws| <= |h|
  {
    if h == [] then []
    else if h[0].authorIsBot then DailyWords(h[1..], cutoff)
    else if h[0].createdAt < cutoff then []
    else (if HasOwnCheck(h[0].reactions) then [h[0].content] else []) + DailyWords(h[1..], cutoff)
  }

  /** The message the `k`-th word of the daily scan was taken from. */
  lemma {:induction false} DailyWordSource(h: seq<Message>, cutoff: int, k: nat) returns (j: nat)
    requires k < |DailyWords(h, cutoff)|
    ensures j < |h| && Qualifies(h[j]) && h[j].createdAt >= cutoff && h[j].content == DailyWords(h, cutoff)[k]
    decreases |h|
  {
    var rest := DailyWords(h[1..], cutoff);
    if h[0].authorIsBot || !HasOwnCheck(h[0].reactions) {
      var i := DailyWordSource(h[1..], cutoff, k);
      j := i + 1;
    } else if k == 0 {
      j := 0;
    } else {
      var i := DailyWordSource(h[1..], cutoff, k - 1);
      j := i + 1;
    }
  }

  /** `w` is the text of a person-written, ✅-ed message of `h` sent at or after `cutoff`. */
  predicate RecentAccepted(h: seq<Message>, cutoff: int, w: string) {
    exists j :: 0 <= j < |h| && Qualifies(h[j]) && h[j].createdAt >= cutoff && h[j].content == w
  }

  /** Every word the daily scan keeps is the text of a recent, person-written, ✅-ed message. */
  lemma DailyWordsAreRecentAccepted(h: seq<Message>, cutoff: int)
    ensures forall k :: 0 <= k < |DailyWords(h, cutoff)| ==> RecentAccepted(h, cutoff, DailyWords(h, cutoff)[k])
  {
    forall k | 0 <= k < |DailyWords(h, cutoff)|
      ensures RecentAccepted(h, cutoff, DailyWords(h, cutoff)[k])
    {
      var j := DailyWordSource(h, cutoff, k);
    }
  }

  /** The daily story's history scan, with its `continue` and `break`. */
  method CollectDailyWords(history: seq<Message>, cutoff: int) returns (words: seq<string>)
    ensures words == DailyWords(history, cutoff)
  {
    words := [];
    var i := 0;
    while i < |history|
      invariant 0 <= i <= |history|
      invariant words + DailyWords(history[i..], cutoff) == DailyWords(history, cutoff)
    {
      var msg := history[i];
      assert history[i..][1..] == history[i + 1..];
      if msg.authorIsBot {
        i := i + 1;
        continue;
      }
      if msg.createdAt < cutoff {
        assert words == DailyWords(history, cutoff);
        return;
      }
      var isValid := ScanReactions(msg.reactions);
      if isValid {
        words := words + [msg.content];
      }
      i := i + 1;
    }
    assert history[|history|..] == [];
    assert words + [] == words;
  }
}

=== FILE: wordchain.dfy ===
/**
 * The word-chain referee: the local rules a move must pass, in the order
 * the bot applies them, and the verdict of the language-model judge that
 * is consulted only afterwards.
 */
module WordChain {
  import opened Wrappers
  import opened PyText
  import opened Sessions

  /** The local reasons for refusing a move, each with its own referee message. */
  datatype Rejection =
    | OpeningTooShort                       // the first word has fewer than two characters
    | OwnFollowUp                           // the previous word's author answers themself
    | TooShort                              // a follow-up has fewer than two characters
    | SameEnds(word: string)                // first and last character agree: an endless loop
    | ChainBreak(wanted: char, got: char) // does not start with the previous word's last character

  /** What the bot sends to the language model; the prompt text itself is opaque. */
  datatype Prompt =
    | JudgePrompt(word: string)  // "is this real vocabulary in a grammatical order?"
    | ChatPrompt(text: string)   // a user's message relayed verbatim

  /** The model's reply text, or a failed call (error, time-out, no content). */
  datatype LlmReply = Answer(text: string) | Failure

  datatype Verdict =
    | Rejected(reason: Rejection)   // a local rule failed; the judge was not asked
    | Accepted                      // the judge said YES; the bot adds ✅
    | JudgeSaidNo(critique: string) // the bot adds ❌ and posts the critique
    | JudgeUnavailable              // the call failed; the bot says the referee zoned out

  datatype Step = Step(session: Session, verdict: Verdict)

  /** The separators the critique loses after its "NO". */
  const CritiqueSeparators: string := ",，:： "

  /** Every local rule a follow-up must satisfy, stated as one conjunction. */
  predicate FollowUpLegal(lastWord: string, lastPlayer: Option<UserId>, author: UserId, word: string)
    requires lastWord != []
  {
    && lastPlayer != Some(author)
    && |word| >= 2
    && word[0] != word[|word| - 1]
    && word[0] == lastWord[|lastWord| - 1]
  }

  /**
   * The first local rule the stripped candidate `word` breaks, if any.
   * An opening move is only checked for length; a follow-up is checked for
   * self-play, then length, then equal ends, then the chain link.
   */
  function LocalRejection(s: Session, author: UserId, word: string): (r: Option<Rejection>)
    ensures s.gameLastWord == [] ==> (r.Some? <==> |word| < 2)
    ensures s.gameLastWord != [] ==> (r.None? <==> FollowUpLegal(s.gameLastWord, s.lastPlayerId, author, word))
    ensures s.gameLastWord == [] ==> r.None? || r == Some(OpeningTooShort)
  {
    var lastWord := s.gameLastWord;
    if lastWord == [] then
      if |word| < 2 then Some(OpeningTooShort) else None
    else if s.lastPlayerId == Some(author) then Some(OwnFollowUp)
    else if |word| < 2 then Some(TooShort)
    else if word[0] == word[|word| - 1] then Some(SameEnds(word))
    else if word[0] != lastWord[|lastWord| - 1] then Some(ChainBreak(lastWord[|lastWord| - 1], word[0]))
    else None
  }

  /** The judge's (already stripped) reply is an acceptance. */
  predicate JudgeAccepts(result: string) {
    StartsWith(result, "YES")
  }

  /** The critique posted for a non-YES reply: drop every "NO", strip, drop separators, strip. */
  function Critique(result: string): (r: string)
    ensures IsStripped(r)
    ensures |r| <= |result|
  {
    Strip(LStripChars(Strip(ReplaceAll(result, "NO", "")), CritiqueSeparators))
  }

  /**
   * One move in a game channel: `content` is the message text, `llm` the
   * model the judge question is put to when the local rules pass.
   */
  function GameStep(s: Session, author: UserId, content: string, llm: Prompt -> LlmReply): (r: Step)
    ensures r.session == s.(gameLastWord := r.session.gameLastWord, lastPlayerId := r.session.lastPlayerId)
    ensures r.verdict.Rejected? <==> LocalRejection(s, author, Strip(content)).Some?
    ensures r.verdict.JudgeUnavailable? <==>
      LocalRejection(s, author, Strip(content)).None? && llm(JudgePrompt(Strip(content))).Failure?
    ensures r.verdict.Accepted? <==>
      && LocalRejection(s, author, Strip(content)).None?
      && llm(JudgePrompt(Strip(content))).Answer?
      && JudgeAccepts(Strip(llm(JudgePrompt(Strip(content))).text))
    ensures r.verdict.Accepted? ==> r.session.gameLastWord == Strip(content) && r.session.lastPlayerId == Some(author)
    ensures !r.verdict.Accepted? ==> r.session == s
    ensures r.verdict.Rejected? ==> r.verdict.reason == LocalRejection(s, author, Strip(content)).value
    ensures r.verdict.JudgeSaidNo? ==> r.verdict.critique == Critique(Strip(llm(JudgePrompt(Strip(content))).text))
  {
    var word := Strip(content);
    match LocalRejection(s, author, word)
    case Some(why) => Step(s, Rejected(why))
    case None =>
      match llm(JudgePrompt(word))
      case Failure => Step(s, JudgeUnavailable)
      case Answer(text) =>
        var result := Strip(text);
        if JudgeAccepts(result) then Step(s.(gameLastWord := word, lastPlayerId := Some(author)), Accepted)
        else Step(s, JudgeSaidNo(Critique(result)))
  }

  /** The follow-up rules are tried in source order and the first failure is reported. */
  lemma FollowUpCheckOrder(s: Session, author: UserId, word: string)
    requires s.gameLastWord != []
    ensures var r := LocalRejection(s, author, word); var last := s.gameLastWord[|s.gameLastWord| - 1];
      && (r == Some(OwnFollowUp) <==> s.lastPlayerId == Some(author))
      && (r == Some(TooShort) <==> s.lastPlayerId != Some(author) && |word| < 2)
      && (r == Some(SameEnds(word)) <==>
            s.lastPlayerId != Some(author) && |word| >= 2 && word[0] == word[|word| - 1])
      && (r.Some? && r.value.ChainBreak? <==>
            s.lastPlayerId != Some(author) && |word| >= 2 && word[0] != word[|word| - 1] && word[0] != last)
      && (r.Some? && r.value.ChainBreak? ==> r.value == ChainBreak(last, word[0]))
  {
  }

  /**
   * A move refused by a local rule is decided before the judge is asked:
   * the outcome is the same whatever the model would have said.
   */
  lemma LocalRejectionSkipsJudge(s: Session, author: UserId, content: string, llm1: Prompt -> LlmReply, llm2: Prompt -> LlmReply)
    requires LocalRejection(s, author, Strip(content)).Some?
    ensures GameStep(s, author, content, llm1) == GameStep(s, author, content, llm2)
    ensures GameStep(s, author, content, llm1).session == s
  {
  }

  /** A move a local rule refuses: the verdict names the rule and the session stays. */
  lemma RejectedMoveIs(s: Session, author: UserId, content: string, llm: Prompt -> LlmReply, why: Rejection)
    requires LocalRejection(s, author, Strip(content)) == Some(why)
    ensures GameStep(s, author, content, llm) == Step(s, Rejected(why))
  {
  }

  /** Every accepted word has at least two characters. */
  lemma AcceptedWordIsLong(s: Session, author: UserId, content: string, llm: Prompt -> LlmReply)
    requires GameStep(s, author, content, llm).verdict.Accepted?
    ensures |GameStep(s, author, content, llm).session.gameLastWord| >= 2
  {
  }

  /**
   * An accepted follow-up obeys the chain: it is long enough, its ends
   * differ, it starts with the previous word's last character, its author
   * did not play the previous word, and hence it differs from that word.
   */
  lemma AcceptedFollowUpObeysRules(s: Session, author: UserId, content: string, llm: Prompt -> LlmReply)
    requires s.gameLastWord != []
    requires GameStep(s, author, content, llm).verdict.Accepted?
    ensures var w := GameStep(s, author, content, llm).session.gameLastWord; var prev := s.gameLastWord;
      && |w| >= 2
      && w[0] != w[|w| - 1]
      && w[0] == prev[|prev| - 1]
      && s.lastPlayerId != Some(author)
      && GameStep(s, author, content, llm).session.lastPlayerId != s.lastPlayerId
      && w != prev
  {
    var w := Strip(content);
    assert LocalRejection(s, author, w).None?;
    assert FollowUpLegal(s.gameLastWord, s.lastPlayerId, author, w);
    assert GameStep(s, author, content, llm).session == s.(gameLastWord := w, lastPlayerId := Some(author));
  }

  /** No move breaks the agreement between the chain fields. */
  lemma GameStepKeepsChainInvariant(s: Session, author: UserId, content: string, llm: Prompt -> LlmReply)
    requires ChainInvariant(s)
    ensures ChainInvariant(GameStep(s, author, content, llm).session)
  {
  }

  lemma {:induction false} LStripCharsPastSeparators(q: string, u: string, chars: string)
    requires forall i :: 0 <= i < |q| ==> q[i] in chars
    requires u == [] || u[0] !in chars
    ensures LStripChars(q + u, chars) == u
    decreases |q|
  {
    if q == [] {
      assert q + u == u;
    } else {
      assert (q + u)[1..] == q[1..] + u;
      LStripCharsPastSeparators(q[1..], u, chars);
    }
  }

  lemma {:induction false} TrimLeftOfAppend(p: string, u: string)
    requires u == [] || !IsSpace(u[0])
    ensures TrimLeft(p + u) == TrimLeft(p) + u
    decreases |p|
  {
    if p == [] {
      assert p + u == u;
    } else if IsSpace(p[0]) {
      assert (p + u)[1..] == p[1..] + u;
      TrimLeftOfAppend(p[1..], u);
    }
  }

  lemma DropLeadingVerdict(rest: string)
    requires !Occurs("NO", rest)
    ensures ReplaceAll("NO" + rest, "NO", "") == rest
  {
    var s := "NO" + rest;
    assert s[..2] == "NO";
    assert s[2..] == rest;
  }

  lemma StripBeforeText(p: string, u: string) returns (k: nat)
    requires u != [] && IsStripped(u)
    ensures k <= |p| && Strip(p + u) == p[k..] + u
  {
    var q := TrimLeft(p);
    k := |p| - |q|;
    TrimLeftIsSuffix(p);
    assert TrimLeft(p + u) == q + u by {
      TrimLeftOfAppend(p, u);
    }
    assert TrimRight(q + u) == q + u by {
      var t := q + u;
      assert t[|t| - 1] == u[|u| - 1];
    }
  }

  lemma SeparatorsThenText(p: string, u: string, k: nat)
    requires forall i :: 0 <= i < |p| ==> p[i] in CritiqueSeparators
    requires u == [] || u[0] !in CritiqueSeparators
    requires k <= |p|
    ensures LStripChars(p[k..] + u, CritiqueSeparators) == u
  {
    var q := p[k..];
    assert forall i :: 0 <= i < |q| ==> q[i] == p[k + i];
    LStripCharsPastSeparators(q, u, CritiqueSeparators);
  }

  /**
   * The usual rejection "NO，<text>" yields `<text>` as the critique: the
   * verdict word and the separators after it are dropped, the rest is
   * posted verbatim.
   */
  lemma CritiqueAfterVerdict(p: string, u: string)
    requires forall i :: 0 <= i < |p| ==> p[i] in CritiqueSeparators
    requires u != [] && IsStripped(u) && u[0] !in CritiqueSeparators
    requires !Occurs("NO", p + u)
    ensures Critique("NO" + p + u) == u
  {
    assert "NO" + p + u == "NO" + (p + u);
    DropLeadingVerdict(p + u);
    var k := StripBeforeText(p, u);
    SeparatorsThenText(p, u, k);
    CritiqueOfStages(p, u, k);
  }

  lemma CritiqueOfStages(p: string, u: string, k: nat)
    requires k <= |p| && IsStripped(u)
    requires ReplaceAll("NO" + p + u, "NO", "") == p + u
    requires Strip(p + u) == p[k..] + u
    requires LStripChars(p[k..] + u, CritiqueSeparators) == u
    ensures Critique("NO" + p + u) == u
  {
    StripKeepsStripped(u);
  }

  /** A referee sample: "戲劇效果" after "接龍遊戲" passes every local rule and goes to the judge. */
  lemma ChainSampleGoesToJudge(author: UserId, other: UserId)
    requires author != other
    ensures LocalRejection(Session(Game, "接龍遊戲", Some(other), None, None), author, "戲劇效果") == None
  {
  }

  /** A referee sample: "龍" after "接龍" is refused as too short. */
  lemma ChainSampleTooShort(author: UserId, other: UserId)
    requires author != other
    ensures LocalRejection(Session(Game, "接龍", Some(other), None, None), author, "龍") == Some(TooShort)
  {
  }

  /** A referee sample: "香蕉" after "蘋果" breaks the chain, which had to go on from 果. */
  lemma ChainSampleBreak(author: UserId, other: UserId)
    requires author != other
    ensures LocalRejection(Session(Game, "蘋果", Some(other), None, None), author, "香蕉") == Some(ChainBreak('果', '香'))
  {
  }
}

=== FILE: wrappers.dfy ===
/** The optional value used for Python's `None`-or-value fields. */
module Wrappers {
  datatype Option<+T> = None | Some(value: T)
}
